=== FILE: README.md ===
# devices_inspection — a Dafny model of the inspection worker and its driver

`devices_inspection.py` logs in to every network device of a roster, runs the inspection
commands of the device's type, and writes one transcript per device into a dated directory.
Each device has its own thread, and a `BoundedSemaphore(200)` caps how many run at once.
A device whose login fails appends one message, ended by a newline, to the shared failure log `01log.log`. When all
threads have been joined, the driver prints how many devices it inspected and how many
failed. It takes the failed count to be the number of lines in that log.

This project models that core: the `inspection` worker and the `__main__` driver loop. It is
split into modules that follow the program's structure:

- `Classifier`: maps a login exception's type name to a category. It also builds the message
  the worker prints and the line it appends to the failure log, and reads such a line back.
- `Lines`: how many lines Python's text-mode `readlines()` reports for a text. A "\n", a
  "\r" or a "\r\n" each end a line, and a trailing piece without a terminator also counts.
- `Transcript`: runs one catalog column of commands. It models the `ReadTimeout`
  placeholder, the skipping of cells that are not text, and the `try/except/finally` that
  writes `show` even when the send raised something else.
- `Worker`: one call of `inspection`, written as the ordered list of its observable
  effects. These are console notices, the failure-log append, the transcript write, the
  disconnect and the slot release.
- `Pool`: the semaphore and a state machine for the driver. A step either launches the next
  roster row (taking a slot) or lets any running worker finish, so every finishing order is
  covered.
- `Report`: the summary counts and the report line.

The transport is not modelled. Its answers are given as a `World`: the login result, the
reply to each catalog row, the timestamp text and the elapsed-time text.

Two paths in the model let an exception escape the worker, and neither adds to the failure log. A device
type missing from the catalog raises `KeyError` at line 202, after the transcript has been
opened and given its header. When a send raises something other than `ReadTimeout`, the
`finally` at lines 210-211 writes the previous command's `show` and the send error escapes.
When no earlier command bound `show`, that `finally` raises `UnboundLocalError` instead,
nothing more is written, and the `UnboundLocalError` escapes. Either way the disconnect and
release at lines 215-218 run first.

## Model

| member | source | states |
|---|---|---|
| Classifier.Classify | devices_inspection.py:162-194 | A type name gets a named category exactly when it is one of the seven names the `match` lists, and it gets that category. `ValueError` and `ReadTimeout` are the only names that give "Enable password rejected". |
| Classifier.Reason | devices_inspection.py:162-194 | The text after the host starts with the unknown-error marker exactly when the exception type is not one of the seven listed names. |
| Classifier.UnknownReasonReadsBack | devices_inspection.py:191-194 | An unknown error's reason embeds both the exception's type name and its text: after the marker, reading up to the first ':' gives the type name, and what follows ": " is the text. |
| Classifier.UnknownLineReadsBack | devices_inspection.py:191-194 | The line appended for an unknown error carries both the exception's type name and its text: after the host, reading the reason back recovers them. |
| Classifier.FailureLine | devices_inspection.py:160-194 | The line appended to the log ends with a newline. Knowing the host, it can be read back into the category that produced it, so different categories never give the same line. |
| Classifier.ReadReasonInverts | devices_inspection.py:162-194 | The text after the host in a message can be read back into its category. An unknown error's text always starts with the unknown-error marker, and a fixed text never does. |
| Classifier.FailureMessage | devices_inspection.py:162-194 | A failure message is one line exactly when the host is one line and, for an unknown error, the type name and the exception text are too. |
| Classifier.ReasonSingleLine | devices_inspection.py:162-194 | Every fixed reason is one line. The unknown-error reason is one line exactly when the type name and exception text are. |
| Classifier.BrokenDetailCountsTwice | devices_inspection.py:191-194 | When an unknown error's text holds a newline, the line appended to the log reads back as at least two lines. |
| Classifier.SafeFailureLineCountsOnce | devices_inspection.py:250 | The corrected log line always reads back as exactly one line. It equals the line as written whenever the message is one line. |
| Classifier.Flatten | devices_inspection.py:250 | The flattened text has the same length, holds no line terminator, and keeps every other character in place. |
| Lines.CountLinesAppend | devices_inspection.py:250 | When the first text ends at a line boundary, the line count of two texts joined is the sum of their counts. |
| Lines.CountOneLine | devices_inspection.py:250 | A text with no terminator, followed by "\n", counts as exactly one line. |
| Lines.SingleLineConcat | devices_inspection.py:250 | Two texts joined are one line exactly when both are. |
| Lines.BrokenLineFrom | devices_inspection.py:250 | A text with a newline inside it, followed by "\n", counts as at least two lines. |
| Lines.LinesFromAtLeastOne | devices_inspection.py:250 | A non-empty text counts as at least one line. |
| Transcript.Rows | devices_inspection.py:202-203 | The rows the runner visits are exactly the text cells, in increasing catalog order. |
| Transcript.RowsComplete | devices_inspection.py:202-203 | No text cell is skipped. |
| Transcript.ColumnFacts | devices_inspection.py:202-211 | `Transcript.RunColumn` runs a whole column with `show` unbound. It ends early exactly when some text cell's send raises something other than `ReadTimeout`. Otherwise it writes, sends and prints exactly what the reference transcript of the column's text cells gives. |
| Transcript.RunFollowsPlan | devices_inspection.py:202-211 | When no send raises anything but `ReadTimeout`, the run does three things. It writes one block per text cell, in order: the separator, then the output or the timeout placeholder. It sends exactly those commands. It prints one notice per timeout. It then ends normally. |
| Transcript.RunStopsAtFirstRaise | devices_inspection.py:204-211 | Suppose the k-th command raises something other than `ReadTimeout`. The run has written the blocks before it and that command's separator. After the separator comes the previous `show`, or nothing when `show` was never bound. The exception escapes: the send error itself, or `UnboundLocalError` when nothing was bound. |
| Transcript.RunStopsIffRaised | devices_inspection.py:204-211 | A run ends early exactly when some text cell's send raises something other than `ReadTimeout`. |
| Transcript.Plan | devices_inspection.py:202-211 | The reference transcript has one block per listed row. |
| Worker.Inspect | devices_inspection.py:149-218 | Every path releases the slot exactly once, and the release is the last effect. Exactly when the login succeeded, it disconnects once, just before the release. A failed login appends exactly one failure line and writes no transcript. A session writes exactly one transcript, named after the host and opened with the time header. |
| Worker.LoginFailureOutcome | devices_inspection.py:160-194 | A failed login prints the message, appends that same message plus one newline, sends nothing, and releases. |
| Worker.CompletedOutcome | devices_inspection.py:195-218 | With a session, a catalog column and no raising send, the worker prints the "inspecting" notice and the timeout notices. It then writes the header and the reference transcript, prints the completion notice, disconnects and releases. |
| Worker.CompletesIff | devices_inspection.py:195-218 | The worker completes exactly when the login succeeds, the device type is in the catalog, and no send raises anything but `ReadTimeout`. |
| Worker.UnknownDeviceTypeOutcome | devices_inspection.py:196-202 | A device type missing from the catalog fails after the transcript has been opened and given its header. Nothing is sent and nothing is appended. The session is closed, the slot is released, and the exception escapes. |
| Worker.SendFailureOutcome | devices_inspection.py:202-218 | A send that raises something other than `ReadTimeout` leaves a transcript that ends at that command. The session is still closed and the slot released before the exception escapes. |
| Worker.SessionEffects | devices_inspection.py:195-218 | A session's effects end with the disconnect and then the release. They hold exactly one transcript write and no failure-log append. |
| Worker.Printed | devices_inspection.py:207-208 | One console notice per timed-out command, in order. |
| Pool.AcquireSlot | devices_inspection.py:22 | Acquiring succeeds exactly when fewer than 200 slots are held, takes one slot, and keeps the counters consistent. |
| Pool.ReleaseSlot | devices_inspection.py:218 | Releasing succeeds exactly when a slot is held, gives one back, and keeps the counters consistent. |
| Pool.StepFacts | devices_inspection.py:236-243 | `Pool.Step` is one driver iteration. A launch is possible exactly when a roster row is left and fewer than 200 slots are held; it takes one slot and starts the next row. A finish removes the finished worker from the running list, and moves neither the main thread's position nor the acquire count. |
| Pool.ExecCountsLaunches | devices_inspection.py:236-246 | `Pool.Exec` runs a schedule of steps. In a schedule that runs, the main thread's position and the acquire count both advance by exactly the number of launches, so no schedule launches past the end of the roster. |
| Pool.AcquireThenRelease | devices_inspection.py:22 | Releasing right after acquiring restores the number of held slots. |
| Pool.LaunchBlocksWhenFull | devices_inspection.py:242 | While all 200 slots are held, the main thread cannot start another worker. |
| Pool.StepKeepsInvariants | devices_inspection.py:236-246 | Any launch or finish keeps the slot accounting. The held slots equal the running workers, and one session is closed per finished successful login. On a tidy roster it also keeps one log line per finished refused login. |
| Pool.ExecKeepsInvariants | devices_inspection.py:236-246 | Every schedule of launches and finishes, in any order, keeps those invariants. The held slots never exceed 200. |
| Pool.JoinedBalanced | devices_inspection.py:236-246 | After the join, every acquire was matched by a release and no slot is held. One session was closed per roster row whose login succeeded. |
| Pool.FinishFacts | devices_inspection.py:215-218 | A finishing worker always finds its slot held. It frees exactly one slot, closes one session exactly when its login succeeded, and appends its failure line, if any. |
| Pool.PerformAllFacts | devices_inspection.py:215-218 | Applying a worker's effects frees one slot per release and counts one close per disconnect. Nothing else in the accounting changes. |
| Pool.PerformAllLog | devices_inspection.py:160-194 | Effects that do not overwrite the failure log change it only by appending their failure lines, in order. |
| Pool.WorkerAppends | devices_inspection.py:160-194 | A worker appends its failure line when the login was refused and nothing otherwise. |
| Pool.SequentialFrom | devices_inspection.py:236-246 | The sequential schedule of the source's loop, in which each worker finishes before the next launch, always reaches the join with every row launched. (The loop itself starts each thread without waiting and blocks only in `acquire`; every other order is covered by `Pool.ExecKeepsInvariants`.) |
| Pool.AmongSplit | devices_inspection.py:236-246 | Every roster row is counted either as a refused login or as a session. |
| Report.SummaryCounts | devices_inspection.py:236-255 | For any order in which workers finish, on a tidy roster, the report counts every row as a device and every refused login as exactly one failed device. |
| Report.SequentialSummary | devices_inspection.py:236-255 | The sequential schedule of the source's loop reaches the join and reports those counts. |
| Report.FailedAtMostDevices | devices_inspection.py:248-255 | On a tidy roster, the failed count never exceeds the device count. |
| Report.FailedPlusClosed | devices_inspection.py:215-218 | After the join on a tidy roster, the failed count plus the closed sessions equals the device count, so every device is counted exactly once. |
| Report.NoLogNoFailures | devices_inspection.py:251-252 | Without a failure log, the failed count is 0. |
| Report.MultiLineDetailOvercounts | devices_inspection.py:191-194 | As written, one device whose unknown login error has a newline in its text is reported as two or more failed devices, although only one login was refused. |
| Report.SafeLogCounts | devices_inspection.py:248-250 | A log built from corrected lines has exactly one line per refused device. |
| Report.DecimalRoundTrip | devices_inspection.py:255 | The decimal digits printed for a count read back as that count. |
| Report.ReportLine | devices_inspection.py:255 | The device count can be read back from the report line right after its opening words. The failed count can be read back right after the device count and its unit. |

## Left out

- Reading the roster and the command catalog from the spreadsheet, including decrypting it (`read_info` and its helpers, lines 54-145). The roster arrives as a list of `Job`s and the catalog as a map from device type to its column of cells.
- netmiko itself: connecting, `send_command` and `disconnect`. The login result and each row's reply are inputs in `World`. A disconnect is assumed not to raise.
- `suppress_stderr` (lines 31-51) and the console's stderr. They change no state the core depends on.
- Real threads, and interleaving inside one worker. `LOCK` serialises the console lines and the failure-log appends (the `with LOCK:` at line 161 wraps the `open` and `write` at lines 165-194). The model applies a worker's effects in one atomic step when it finishes, which stands for that mutual exclusion. Workers may still finish in any order.
- Creating or clearing the dated directory (lines 228-234). The run starts from an empty directory.
- Clock values (`time.time`, `strftime`, `round(..., 1)`). The timestamp and the elapsed time are input texts.
- Replies are indexed by catalog row, so a command repeated in one column may get different answers.
- The `input()` prompts and the final "press Enter" wait.
- A roster row without a `host` column. It raises in the main thread while the thread is being named (line 239), before any slot is taken.
- The `conn_timeout` setting added to each row's login details (line 238). It only shapes the transport's behaviour, which is an input here.
- Pool.SequentialFrom: it is stated from any quiet state (nothing running, the invariants holding) rather than only from the start state. `Report.SequentialSummary` applies it to the start state.
- Worker.Inspect: opening and writing `<host>.log` and `01log.log` are assumed to succeed. In the source the transcript `open` at line 196 can raise, for example `FileNotFoundError` for a host such as `a/b`. That happens before the "inspecting" notice and before any transcript exists, and the exception escapes after the disconnect and release. A failing `open` of `01log.log` at lines 165-193 likewise escapes after the message is printed, with nothing appended. The model writes one transcript for every session and one line for every refusal.
- Classifier.UnknownReasonReadsBack and Classifier.UnknownLineReadsBack: they assume the exception's type name holds no ':'. A Python class name is an identifier, so every real type name meets this.
- Report.SummaryCounts: it assumes a tidy roster. A tidy roster has no host named `01log`, whose transcript would replace the failure log. Every failure message on it is also a single line. Without these the count can be wrong, as shown under Findings.
- Report.SummaryCounts: the model compares file names as exact, case-sensitive strings, with no path resolution. On a case-insensitive file system a host such as `01LOG` would also overwrite the failure log. So would a path-like host that `os.path.join` (line 196) resolves to it. `Tidy` excludes only the exact name.

## Findings

| source | as written | input that shows it | evidently intended | confidence | as-written member | corrected member |
|---|---|---|---|---|---|---|
| devices_inspection.py:191-194, 250 | The failed count is the number of lines in `01log.log`. An unknown error's message embeds `str(error)`, which may contain line breaks, so one device can add several lines. | One device whose login raises an exception not among the seven listed names, with text `"a\nb"` | Each failed device adds exactly one line, so the report counts failed devices | not executed; moderate, because an exception text with a line break depends on the transport | Report.MultiLineDetailOvercounts | Report.SafeLogCounts |

=== FILE: classifier.dfy ===
/** The login-failure classifier: the exception a failed login raised, named by its Python
    type name, is mapped to one fixed message, which `inspection` prints to the console and
    appends, with a trailing newline, to the shared failure log `01log.log`. */
module Classifier {
  import opened Wrappers
  import opened Lines

  /** A login failure as the transport raises it: `type(err).__name__` and `str(err)`. */
  datatype LoginError = LoginError(typeName: string, detail: string)

  /** The stable failure categories. `EnableRejected` covers both `ValueError` and `ReadTimeout`. */
  datatype Category =
    | MissingAddress
    | Unreachable
    | BadCredentials
    | EnableRejected
    | TelnetTimeout
    | ProtocolRefused
    | Unknown

  /** The exception type names the classifier recognises, with their categories. */
  const Recognised: map<string, Category> := map[
    "AttributeError" := MissingAddress,
    "NetmikoTimeoutException" := Unreachable,
    "NetmikoAuthenticationException" := BadCredentials,
    "ValueError" := EnableRejected,
    "TimeoutError" := TelnetTimeout,
    "ReadTimeout" := EnableRejected,
    "ConnectionRefusedError" := ProtocolRefused
  ]

  /** Marks the message of an unrecognised exception. */
  const UnknownPrefix: string := "未知错误！"

  /** Classifies by exact match on the type name; anything else is `Unknown`. */
  function Classify(e: LoginError): (c: Category)
    ensures e.typeName in Recognised <==> !c.Unknown?
    ensures e.typeName in Recognised ==> c == Recognised[e.typeName]
    ensures c == EnableRejected <==> e.typeName == "ValueError" || e.typeName == "ReadTimeout"
  {
    match e.typeName
    case "AttributeError" => MissingAddress
    case "NetmikoTimeoutException" => Unreachable
    case "NetmikoAuthenticationException" => BadCredentials
    case "ValueError" => EnableRejected
    case "TimeoutError" => TelnetTimeout
    case "ReadTimeout" => EnableRejected
    case "ConnectionRefusedError" => ProtocolRefused
    case _ => Unknown
  }

  /** The fixed text of a recognised category. */
  function FixedText(c: Category): string
    requires !c.Unknown?
  {
    match c
    case MissingAddress => "缺少设备管理地址！"
    case Unreachable => "管理地址或端口不可达！"
    case BadCredentials => "用户名或密码认证失败！"
    case EnableRejected => "Enable密码认证失败！"
    case TelnetTimeout => "Telnet连接超时！"
    case ProtocolRefused => "远程登录协议错误！"
  }

  /** The part of the message after the host: a fixed text, or for an unrecognised
      exception the unknown-error marker followed by `<type name>: <detail>`. Only the
      unknown-error reason starts with the marker. */
  function Reason(e: LoginError): (r: string)
    ensures UnknownPrefix <= r <==> Classify(e).Unknown?
  {
    var c := Classify(e);
    if c.Unknown? then UnknownPrefix + e.typeName + ": " + e.detail
    else FixedTextUnmarked(c); FixedText(c)
  }

  /** No fixed text starts with the unknown-error marker. */
  lemma FixedTextUnmarked(c: Category)
    requires !c.Unknown?
    ensures !(UnknownPrefix <= FixedText(c))
  {
    assert FixedText(c)[0] != UnknownPrefix[0];
  }

  /** The console message for a device whose login raised `e`. It is a single line exactly
      when the host is, and, for an unrecognised exception, its type name and detail are too
      (every fixed text is single-line). */
  function FailureMessage(host: string, e: LoginError): (m: string)
    ensures SingleLine(m) <==>
      SingleLine(host) && (Classify(e).Unknown? ==> SingleLine(e.typeName) && SingleLine(e.detail))
  {
    SingleLineConcat("设备 " + host, " ");
    SingleLineConcat("设备 ", host);
    SingleLineConcat("设备 " + host + " ", Reason(e));
    ReasonSingleLine(e);
    "设备 " + host + " " + Reason(e)
  }

  /** What is appended to the failure log: the console message and one newline. Knowing the
      host, the line reads back as the category the classifier chose, so distinct categories
      give distinct lines. */
  function FailureLine(host: string, e: LoginError): (l: string)
    ensures Terminated(l)
    ensures ReadFailureLine(host, l) == Some(Classify(e))
  {
    MessageReadsBack(host, e);
    FailureMessage(host, e) + "\n"
  }

  /** Reads a reason back into its category: the inverse of `Reason` on categories. */
  function ReadReason(t: string): (r: Option<Category>)
    ensures r.Some? && !r.value.Unknown? ==> t == FixedText(r.value)
    ensures r == Some(Unknown) <==> UnknownPrefix <= t
  {
    if UnknownPrefix <= t then Some(Unknown)
    else if t == FixedText(MissingAddress) then Some(MissingAddress)
    else if t == FixedText(Unreachable) then Some(Unreachable)
    else if t == FixedText(BadCredentials) then Some(BadCredentials)
    else if t == FixedText(EnableRejected) then Some(EnableRejected)
    else if t == FixedText(TelnetTimeout) then Some(TelnetTimeout)
    else if t == FixedText(ProtocolRefused) then Some(ProtocolRefused)
    else None
  }

  /** Reads a failure-log line of a known host back into its category, or None if the
      line is not shaped like one. */
  function ReadFailureLine(host: string, line: string): Option<Category> {
    var lead := "设备 " + host + " ";
    if |line| > |lead| && lead <= line && line[|line| - 1] == '\n'
    then ReadReason(line[|lead|..|line| - 1])
    else None
  }

  /** Reading a reason back recovers the category it was produced from. */
  lemma ReadReasonInverts(e: LoginError)
    ensures ReadReason(Reason(e)) == Some(Classify(e))
  {
    var c := Classify(e);
    if c.Unknown? {
      assert UnknownPrefix <= Reason(e);
    } else {
      FixedTextUnmarked(c);
    }
  }

  /** The position of the first ':' in `t`, or `|t|` if there is none. */
  function FirstColonOf(t: string): (k: nat)
    ensures k <= |t|
    ensures k < |t| ==> t[k] == ':'
    ensures forall i :: 0 <= i < k ==> t[i] != ':'
    decreases |t|
  {
    if t == [] || t[0] == ':' then 0 else 1 + FirstColonOf(t[1..])
  }

  /** Reads an unknown-error reason back into the exception's type name and detail: after the
      marker, the type name runs up to the first ':', and the detail follows ": ". */
  function ReadUnknown(r: string): Option<(string, string)> {
    if UnknownPrefix <= r then
      var t := r[|UnknownPrefix|..];
      var k := FirstColonOf(t);
      if k + 1 < |t| && t[k + 1] == ' ' then Some((t[..k], t[k + 2..])) else None
    else None
  }

  /** The unknown-error reason embeds both the exception's type name and its detail text:
      reading it back recovers them, since a Python type name holds no ':'. */
  lemma UnknownReasonReadsBack(e: LoginError)
    requires Classify(e).Unknown? && ':' !in e.typeName
    ensures ReadUnknown(Reason(e)) == Some((e.typeName, e.detail))
  {
    var r := Reason(e);
    var t := e.typeName + ": " + e.detail;
    assert r == UnknownPrefix + t;
    assert r[|UnknownPrefix|..] == t;
    assert t[|e.typeName|] == ':';
    assert forall i :: 0 <= i < |e.typeName| ==> t[i] == e.typeName[i];
    assert FirstColonOf(t) == |e.typeName|;
    assert t[..|e.typeName|] == e.typeName;
    assert t[|e.typeName| + 2..] == e.detail;
  }

  /** The line appended for an unknown error carries both the exception's type name and its
      text: after the host, reading the reason back recovers them. */
  lemma UnknownLineReadsBack(host: string, e: LoginError)
    requires Classify(e).Unknown? && ':' !in e.typeName
    ensures var lead := "设备 " + host + " ";
            var l := FailureLine(host, e);
            && |lead| < |l| && lead <= l
            && ReadUnknown(l[|lead|..|l| - 1]) == Some((e.typeName, e.detail))
  {
    var lead := "设备 " + host + " ";
    var l := FailureLine(host, e);
    assert l == lead + Reason(e) + "\n";
    assert l[|lead|..|l| - 1] == Reason(e);
    UnknownReasonReadsBack(e);
  }

  /** A message followed by a newline reads back, knowing the host, as its category. */
  lemma MessageReadsBack(host: string, e: LoginError)
    ensures ReadFailureLine(host, FailureMessage(host, e) + "\n") == Some(Classify(e))
  {
    var lead := "设备 " + host + " ";
    var line := FailureMessage(host, e) + "\n";
    assert line == lead + Reason(e) + "\n";
    assert |Reason(e)| > 0 by {
      if Classify(e).Unknown? { assert |UnknownPrefix| > 0; }
    }
    assert lead <= line;
    assert line[|lead|..|line| - 1] == Reason(e);
    ReadReasonInverts(e);
  }

  /** The reason is a single line exactly when, for an unrecognised exception, its type name
      and detail are. */
  lemma ReasonSingleLine(e: LoginError)
    ensures SingleLine(Reason(e)) <==> (Classify(e).Unknown? ==> SingleLine(e.typeName) && SingleLine(e.detail))
  {
    if Classify(e).Unknown? {
      SingleLineConcat(UnknownPrefix + e.typeName + ": ", e.detail);
      SingleLineConcat(UnknownPrefix + e.typeName, ": ");
      SingleLineConcat(UnknownPrefix, e.typeName);
    }
  }

  /** Replaces every line terminator by a space, so the text is one line. */
  function Flatten(s: string): (r: string)
    ensures |r| == |s| && SingleLine(r)
    ensures forall i :: 0 <= i < |s| && s[i] != '\n' && s[i] != '\r' ==> r[i] == s[i]
  {
    seq(|s|, i requires 0 <= i < |s| => if s[i] == '\n' || s[i] == '\r' then ' ' else s[i])
  }

  /** The failure-log line with line terminators inside the message flattened, so that
      each failed device adds exactly one line to the log. */
  function SafeFailureLine(host: string, e: LoginError): string {
    Flatten(FailureMessage(host, e)) + "\n"
  }

  /** The corrected line always reads back as one line. */
  lemma SafeFailureLineCountsOnce(host: string, e: LoginError)
    ensures CountLines(SafeFailureLine(host, e)) == 1
    ensures SingleLine(FailureMessage(host, e)) ==> SafeFailureLine(host, e) == FailureLine(host, e)
  {
    CountOneLine(Flatten(FailureMessage(host, e)));
  }

  /** As written, an unrecognised exception whose detail holds a newline adds two or more
      lines to the failure log, so the summary counts that one device more than once. */
  lemma BrokenDetailCountsTwice(host: string, e: LoginError, j: nat)
    requires e.typeName !in Recognised
    requires j < |e.detail| && e.detail[j] == '\n'
    ensures CountLines(FailureLine(host, e)) >= 2
  {
    var m := FailureMessage(host, e);
    var k := |"设备 "| + |host| + 1 + |UnknownPrefix| + |e.typeName| + 2 + j;
    assert m == "设备 " + host + " " + UnknownPrefix + e.typeName + ": " + e.detail;
    assert m[k] == e.detail[j];
    BrokenLineFrom(m, false, k);
  }
}

=== FILE: lines.dfy ===
/** How many lines Python's text-mode `readlines()` reports for a file's contents.
    In text mode with universal newlines, "\n", "\r" and "\r\n" each end a line, and
    a final segment without a terminator still counts as a line. */
module Lines {

  /** True if the text holds no line terminator of any kind. */
  predicate SingleLine(s: string) {
    forall i :: 0 <= i < |s| ==> s[i] != '\n' && s[i] != '\r'
  }

  /** A concatenation is one line exactly when both parts are. */
  lemma SingleLineConcat(a: string, b: string)
    ensures SingleLine(a + b) <==> SingleLine(a) && SingleLine(b)
  {
    if SingleLine(a + b) {
      assert forall i :: 0 <= i < |a| ==> a[i] == (a + b)[i];
      assert forall i :: 0 <= i < |b| ==> b[i] == (a + b)[|a| + i];
    }
  }

  /** True if the text is empty or its last character is "\n". */
  predicate Terminated(s: string) {
    s == [] || s[|s| - 1] == '\n'
  }

  /** Lines in `s`, where `open` says whether the current line already holds characters. */
  function LinesFrom(s: string, open: bool): nat
    decreases |s|
  {
    if |s| == 0 then (if open then 1 else 0)
    else if s[0] == '\n' then 1 + LinesFrom(s[1..], false)
    else if s[0] == '\r' then
      (if |s| > 1 && s[1] == '\n' then 1 + LinesFrom(s[2..], false) else 1 + LinesFrom(s[1..], false))
    else LinesFrom(s[1..], true)
  }

  /** The length of the list `readlines()` returns for a file holding `s`. */
  function CountLines(s: string): nat {
    LinesFrom(s, false)
  }

  /** Counting is additive across a boundary that follows a "\n". */
  lemma {:induction false} LinesFromAppend(a: string, b: string, open: bool)
    requires a != [] && a[|a| - 1] == '\n'
    ensures LinesFrom(a + b, open) == LinesFrom(a, open) + LinesFrom(b, false)
    decreases |a|
  {
    var ab := a + b;
    assert ab[0] == a[0];
    if a[0] == '\n' {
      if |a| == 1 {
        assert ab[1..] == b;
      } else {
        assert ab[1..] == a[1..] + b;
        LinesFromAppend(a[1..], b, false);
      }
    } else if a[0] == '\r' {
      assert |a| > 1;
      assert ab[1] == a[1];
      if a[1] == '\n' {
        if |a| == 2 {
          assert ab[2..] == b;
        } else {
          assert ab[2..] == a[2..] + b;
          LinesFromAppend(a[2..], b, false);
        }
      } else {
        assert ab[1..] == a[1..] + b;
        LinesFromAppend(a[1..], b, false);
      }
    } else {
      assert ab[1..] == a[1..] + b;
      LinesFromAppend(a[1..], b, true);
    }
  }

  /** Appending to a terminated text adds exactly the appended text's lines. */
  lemma CountLinesAppend(a: string, b: string)
    requires Terminated(a)
    ensures CountLines(a + b) == CountLines(a) + CountLines(b)
  {
    if a == [] {
      assert a + b == b;
    } else {
      LinesFromAppend(a, b, false);
    }
  }

  /** A text with no terminator inside it, followed by one "\n", reads back as one line. */
  lemma {:induction false} OneLineFrom(s: string, open: bool)
    requires SingleLine(s)
    ensures LinesFrom(s + "\n", open) == 1
    decreases |s|
  {
    var t := s + "\n";
    if s == [] {
      assert t == "\n";
    } else {
      assert t[0] == s[0];
      assert t[1..] == s[1..] + "\n";
      OneLineFrom(s[1..], true);
    }
  }

  /** The line a writer appends, a single-line text plus "\n", counts once. */
  lemma CountOneLine(s: string)
    requires SingleLine(s)
    ensures CountLines(s + "\n") == 1
  {
    OneLineFrom(s, false);
  }

  /** A text holding a "\n" inside, with a further "\n" at its end, reads back as at least two lines. */
  lemma {:induction false} BrokenLineFrom(s: string, open: bool, k: nat)
    requires k < |s| && s[k] == '\n'
    ensures LinesFrom(s + "\n", open) >= 2
    decreases |s|
  {
    var t := s + "\n";
    assert t[0] == s[0];
    if k == 0 {
      assert t[1..] == s[1..] + "\n";
      LinesFromAtLeastOne(s[1..] + "\n", false);
    } else if s[0] == '\r' && s[1] == '\n' {
      assert t[1] == s[1];
      if k == 1 {
        assert t[2..] == s[2..] + "\n";
        LinesFromAtLeastOne(s[2..] + "\n", false);
      } else {
        assert t[2..] == s[2..] + "\n";
        BrokenLineFrom(s[2..], false, k - 2);
      }
    } else {
      assert t[1..] == s[1..] + "\n";
      BrokenLineFrom(s[1..], s[0] != '\r' && s[0] != '\n', k - 1);
    }
  }

  /** Any non-empty text holds at least one line. */
  lemma {:induction false} LinesFromAtLeastOne(s: string, open: bool)
    requires s != []
    ensures LinesFrom(s, open) >= 1
    decreases |s|
  {
    if s[0] != '\n' && s[0] != '\r' && |s| > 1 {
      LinesFromAtLeastOne(s[1..], true);
    }
  }
}

=== FILE: pool.dfy ===
/** The driver's bounded pool: a `BoundedSemaphore(200)` acquired by the main thread before
    each worker starts and released by the worker's `finally` block. Workers may finish in
    any order, so the driver is modelled as a state machine over two events: the main
    thread launches the next device (when a slot is free), or some running worker finishes.
    A finishing worker's effects are applied at once; the dated directory starts empty. */
module Pool {
  import opened Wrappers
  import opened Worker
  import opened Classifier
  import opened Lines

  const Capacity: nat := 200

  /** The semaphore's slots in use, and how many acquires and releases have happened. */
  datatype Slots = Slots(held: nat, acquired: nat, released: nat)

  /** The counters agree and never exceed the capacity. */
  predicate Balanced(s: Slots) {
    s.held + s.released == s.acquired && s.held <= Capacity
  }

  /** `acquire()`: takes a slot, or None when all are held (the caller would block). */
  function AcquireSlot(s: Slots): (r: Option<Slots>)
    ensures r.Some? <==> s.held < Capacity
    ensures Balanced(s) && r.Some? ==> Balanced(r.value)
    ensures r.Some? ==> r.value.held == s.held + 1 && r.value.released == s.released
  {
    if s.held < Capacity then Some(Slots(s.held + 1, s.acquired + 1, s.released)) else None
  }

  /** `release()`: returns a slot, or None when none is held (a bounded semaphore raises
      `ValueError` then). */
  function ReleaseSlot(s: Slots): (r: Option<Slots>)
    ensures r.Some? <==> s.held > 0
    ensures Balanced(s) && r.Some? ==> Balanced(r.value)
    ensures r.Some? ==> r.value.held + 1 == s.held && r.value.acquired == s.acquired
  {
    if s.held > 0 then Some(Slots(s.held - 1, s.acquired, s.released + 1)) else None
  }

  /** Releasing undoes acquiring: the slot count is back where it was. */
  lemma AcquireThenRelease(s: Slots)
    requires s.held < Capacity
    ensures ReleaseSlot(AcquireSlot(s).value) == Some(Slots(s.held, s.acquired + 1, s.released + 1))
  {
  }

  /** One roster row with the world its worker will observe. */
  datatype Job = Job(device: Device, world: World)

  /** The dated directory: file name to contents. */
  type Disk = map<string, string>

  /** The failure log's contents, empty when the file does not exist. */
  function LogText(disk: Disk): string {
    if FailureLogName in disk then disk[FailureLogName] else ""
  }

  /** The driver's state: the next roster row to launch, the rows whose workers are running,
      the semaphore, the directory, the console lines, and how many sessions were closed. */
  datatype State = State(next: nat, running: seq<nat>, slots: Slots, disk: Disk, console: seq<string>, disconnects: nat)

  /** Before the first launch: nothing running, no slot held, the directory empty. */
  function Init(): State {
    State(0, [], Slots(0, 0, 0), map[], [], 0)
  }

  datatype Event = Launch | Finish(k: nat)

  /** Applies one worker effect. Appending to the failure log creates it if absent; writing a
      transcript replaces any file of that name. */
  function Perform(s: State, e: Effect): Option<State> {
    match e
    case Notice(t) => Some(s.(console := s.console + [t]))
    case AppendFailure(l) => Some(s.(disk := s.disk[FailureLogName := LogText(s.disk) + l]))
    case WriteTranscript(n, c) => Some(s.(disk := s.disk[n := c]))
    case Disconnect => Some(s.(disconnects := s.disconnects + 1))
    case Release =>
      match ReleaseSlot(s.slots)
      case None => None
      case Some(sl) => Some(s.(slots := sl))
  }

  /** Applies a worker's effects in order; None if a release finds no slot held. */
  function PerformAll(s: State, es: seq<Effect>): Option<State>
    decreases |es|
  {
    if es == [] then Some(s)
    else match Perform(s, es[0])
      case None => None
      case Some(s1) => PerformAll(s1, es[1..])
  }

  /** The running list without its `k`-th entry. */
  function Without(xs: seq<nat>, k: nat): (r: seq<nat>)
    requires k < |xs|
    ensures |r| + 1 == |xs|
    ensures forall x :: x in r ==> x in xs
  {
    xs[..k] + xs[k + 1..]
  }

  /** One driver step: launching needs a roster row left and a free slot (otherwise the main
      thread is blocked in `acquire`); finishing runs the chosen worker's effects. */
  function Step(jobs: seq<Job>, catalog: Catalog, s: State, ev: Event): Option<State> {
    match ev
    case Launch =>
      if s.next < |jobs| then
        match AcquireSlot(s.slots)
        case None => None
        case Some(sl) => Some(s.(next := s.next + 1, running := s.running + [s.next], slots := sl))
      else None
    case Finish(k) =>
      if k < |s.running| && s.running[k] < |jobs| then
        var job := jobs[s.running[k]];
        PerformAll(s.(running := Without(s.running, k)), Inspect(job.device, catalog, job.world).effects)
      else None
  }

  /** A launch is possible exactly when a roster row is left and a slot is free; it takes one
      slot and starts the next row's worker. A finish removes the finished worker from the
      running list and leaves the main thread's position and the acquire count alone. */
  lemma StepFacts(jobs: seq<Job>, catalog: Catalog, s: State, ev: Event)
    ensures ev.Launch? ==> (Step(jobs, catalog, s, ev).Some? <==> s.next < |jobs| && s.slots.held < Capacity)
    ensures ev.Launch? && Step(jobs, catalog, s, ev).Some? ==>
      var t := Step(jobs, catalog, s, ev).value;
      && t.next == s.next + 1 && t.running == s.running + [s.next]
      && t.slots.held == s.slots.held + 1 && t.disk == s.disk
    ensures ev.Finish? && Step(jobs, catalog, s, ev).Some? ==>
      var t := Step(jobs, catalog, s, ev).value;
      && ev.k < |s.running| && t.next == s.next && t.running == Without(s.running, ev.k)
    ensures Step(jobs, catalog, s, ev).Some? ==>
      Step(jobs, catalog, s, ev).value.slots.acquired == s.slots.acquired + (if ev.Launch? then 1 else 0)
  {
    if ev.Finish? && ev.k < |s.running| && s.running[ev.k] < |jobs| {
      var job := jobs[s.running[ev.k]];
      PerformAllKeeps(s.(running := Without(s.running, ev.k)), Inspect(job.device, catalog, job.world).effects);
    }
  }

  /** A worker's effects never move the main thread's position, the running list or the
      acquire count. */
  lemma {:induction false} PerformAllKeeps(s: State, es: seq<Effect>)
    ensures PerformAll(s, es).Some? ==>
      var t := PerformAll(s, es).value;
      t.next == s.next && t.running == s.running && t.slots.acquired == s.slots.acquired
    decreases |es|
  {
    if es != [] && Perform(s, es[0]).Some? {
      PerformAllKeeps(Perform(s, es[0]).value, es[1..]);
    }
  }

  /** How many launches a schedule holds. */
  function Launches(evs: seq<Event>): nat
    decreases |evs|
  {
    if evs == [] then 0 else (if evs[0].Launch? then 1 else 0) + Launches(evs[1..])
  }

  /** Runs a schedule of events; None if some event is not possible when it comes. */
  function Exec(jobs: seq<Job>, catalog: Catalog, s: State, evs: seq<Event>): Option<State>
    decreases |evs|
  {
    if evs == [] then Some(s)
    else match Step(jobs, catalog, s, evs[0])
      case None => None
      case Some(s1) => Exec(jobs, catalog, s1, evs[1..])
  }

  /** In a schedule that runs, each launch moves to the next roster row and takes one slot,
      and finishes do neither, so no schedule launches past the end of the roster. */
  lemma {:induction false} ExecCountsLaunches(jobs: seq<Job>, catalog: Catalog, s: State, evs: seq<Event>)
    requires Exec(jobs, catalog, s, evs).Some?
    ensures Exec(jobs, catalog, s, evs).value.next == s.next + Launches(evs)
    ensures Exec(jobs, catalog, s, evs).value.slots.acquired == s.slots.acquired + Launches(evs)
    ensures s.next <= |jobs| ==> Exec(jobs, catalog, s, evs).value.next <= |jobs|
    decreases |evs|
  {
    if evs != [] {
      StepFacts(jobs, catalog, s, evs[0]);
      ExecCountsLaunches(jobs, catalog, Step(jobs, catalog, s, evs[0]).value, evs[1..]);
    }
  }

  /** The join-all barrier has passed: every row was launched and no worker is running. */
  predicate Joined(jobs: seq<Job>, s: State) {
    s.next == |jobs| && s.running == []
  }

  /** The sequential schedule of the driver's loop, in which each worker finishes before the
      next launch: launch, finish, for every roster row. */
  function Sequential(n: nat): (evs: seq<Event>)
    ensures |evs| == 2 * n
  {
    if n == 0 then [] else [Launch, Finish(0)] + Sequential(n - 1)
  }

  /** 1 if row `x` exists and its login was refused (`refused`) or succeeded (`!refused`). */
  function Weight(jobs: seq<Job>, x: nat, refused: bool): nat {
    if x < |jobs| && jobs[x].world.login.Refused? == refused then 1 else 0
  }

  /** How many of the rows listed in `xs` have the given login result. */
  function CountIn(jobs: seq<Job>, xs: seq<nat>, refused: bool): nat
    decreases |xs|
  {
    if xs == [] then 0 else CountIn(jobs, xs[..|xs| - 1], refused) + Weight(jobs, xs[|xs| - 1], refused)
  }

  /** How many of the first `n` roster rows have the given login result. */
  function Among(jobs: seq<Job>, n: nat, refused: bool): (c: nat)
    ensures c <= n
  {
    if n == 0 then 0 else Among(jobs, n - 1, refused) + Weight(jobs, n - 1, refused)
  }

  /** Every roster row is either refused or logged in: the two counts add up to the roster. */
  lemma {:induction false} AmongSplit(jobs: seq<Job>, n: nat)
    requires n <= |jobs|
    ensures Among(jobs, n, true) + Among(jobs, n, false) == n
  {
    if n > 0 {
      AmongSplit(jobs, n - 1);
    }
  }

  lemma {:induction false} CountInAppend(jobs: seq<Job>, a: seq<nat>, b: seq<nat>, refused: bool)
    ensures CountIn(jobs, a + b, refused) == CountIn(jobs, a, refused) + CountIn(jobs, b, refused)
    decreases |b|
  {
    if b == [] {
      assert a + b == a;
    } else {
      var b' := b[..|b| - 1];
      assert (a + b)[..|a + b| - 1] == a + b';
      CountInAppend(jobs, a, b', refused);
    }
  }

  lemma CountInWithout(jobs: seq<Job>, xs: seq<nat>, k: nat, refused: bool)
    requires k < |xs|
    ensures CountIn(jobs, xs, refused) == CountIn(jobs, Without(xs, k), refused) + Weight(jobs, xs[k], refused)
  {
    assert xs == xs[..k] + [xs[k]] + xs[k + 1..];
    CountInAppend(jobs, xs[..k] + [xs[k]], xs[k + 1..], refused);
    CountInAppend(jobs, xs[..k], [xs[k]], refused);
    CountInAppend(jobs, xs[..k], xs[k + 1..], refused);
    assert [xs[k]][..0] == [];
  }

  /** The failure lines a list of effects appends, in order. */
  function Appended(es: seq<Effect>): string {
    if es == [] then "" else (if es[0].AppendFailure? then es[0].line else "") + Appended(es[1..])
  }

  /** No effect in the list writes a transcript over the failure log. */
  predicate SparesLog(es: seq<Effect>) {
    forall k :: 0 <= k < |es| && es[k].WriteTranscript? ==> es[k].name != FailureLogName
  }

  /** One effect changes the slots only if it is a release and the close count only if it is
      a disconnect. */
  lemma PerformFacts(s: State, e: Effect)
    requires Balanced(s.slots) && s.slots.held >= Indicator(e, ReleaseKind)
    ensures Perform(s, e).Some?
    ensures var t := Perform(s, e).value;
            && t.next == s.next && t.running == s.running
            && t.slots.held + Indicator(e, ReleaseKind) == s.slots.held
            && t.slots.acquired == s.slots.acquired && Balanced(t.slots)
            && t.disconnects == s.disconnects + Indicator(e, DisconnectKind)
  {
  }

  /** Applying effects changes the slots only by their releases and the close count only by
      their disconnects; the log is `PerformAllLog`. */
  lemma {:induction false} PerformAllFacts(s: State, es: seq<Effect>)
    requires Balanced(s.slots) && s.slots.held >= Tally(es, ReleaseKind)
    ensures PerformAll(s, es).Some?
    ensures var t := PerformAll(s, es).value;
            && t.next == s.next && t.running == s.running
            && t.slots.held + Tally(es, ReleaseKind) == s.slots.held
            && t.slots.acquired == s.slots.acquired && Balanced(t.slots)
            && t.disconnects == s.disconnects + Tally(es, DisconnectKind)
    decreases |es|
  {
    if es != [] {
      PerformFacts(s, es[0]);
      var s1 := Perform(s, es[0]).value;
      PerformAllFacts(s1, es[1..]);
      assert PerformAll(s, es) == PerformAll(s1, es[1..]);
      assert Tally(es, ReleaseKind) == Indicator(es[0], ReleaseKind) + Tally(es[1..], ReleaseKind);
      assert Tally(es, DisconnectKind) == Indicator(es[0], DisconnectKind) + Tally(es[1..], DisconnectKind);
    }
  }

  /** Effects that do not write a transcript over the failure log change it only by their
      appends, in order. */
  lemma {:induction false} PerformAllLog(s: State, es: seq<Effect>)
    requires PerformAll(s, es).Some? && SparesLog(es)
    ensures LogText(PerformAll(s, es).value.disk) == LogText(s.disk) + Appended(es)
    decreases |es|
  {
    if es == [] {
      assert LogText(s.disk) + "" == LogText(s.disk);
    } else {
      var s1 := Perform(s, es[0]).value;
      SparesLogTail(es);
      PerformLog(s, es[0]);
      PerformAllLog(s1, es[1..]);
      var head := if es[0].AppendFailure? then es[0].line else "";
      assert PerformAll(s, es) == PerformAll(s1, es[1..]);
      assert Appended(es) == head + Appended(es[1..]);
      assert (LogText(s.disk) + head) + Appended(es[1..]) == LogText(s.disk) + (head + Appended(es[1..]));
    }
  }

  /** One effect that does not write a transcript over the failure log changes the log only
      if it is an append. */
  lemma PerformLog(s: State, e: Effect)
    requires Perform(s, e).Some? && !(e.WriteTranscript? && e.name == FailureLogName)
    ensures LogText(Perform(s, e).value.disk) == LogText(s.disk) + (if e.AppendFailure? then e.line else "")
  {
  }

  /** Sparing the log is inherited by the tail, and the head spares it too. */
  lemma SparesLogTail(es: seq<Effect>)
    requires es != [] && SparesLog(es)
    ensures SparesLog(es[1..])
    ensures !(es[0].WriteTranscript? && es[0].name == FailureLogName)
  {
    forall k | 0 <= k < |es[1..]| && es[1..][k].WriteTranscript?
      ensures es[1..][k].name != FailureLogName
    {
      assert es[1..][k] == es[k + 1];
    }
  }

  /** A list of effects with no append appends nothing. */
  lemma {:induction false} NoAppendAppendsNothing(es: seq<Effect>)
    requires Tally(es, AppendKind) == 0
    ensures Appended(es) == ""
    decreases |es|
  {
    if es != [] {
      NoAppendAppendsNothing(es[1..]);
    }
  }

  /** No roster row writes its transcript over the failure log, and every refused login's
      message is a single line, so each refused login adds exactly one line to the log. */
  predicate Tidy(jobs: seq<Job>) {
    forall i :: 0 <= i < |jobs| ==>
      && TranscriptName(jobs[i].device.host) != FailureLogName
      && (jobs[i].world.login.Refused? ==> SingleLine(FailureMessage(jobs[i].device.host, jobs[i].world.login.error)))
  }

  /** What a worker's effects append to the failure log: its failure line, or nothing. */
  lemma WorkerAppends(dev: Device, catalog: Catalog, world: World)
    ensures var o := Inspect(dev, catalog, world);
            Appended(o.effects) == if world.login.Refused? then FailureLine(dev.host, world.login.error) else ""
    ensures TranscriptName(dev.host) != FailureLogName ==> SparesLog(Inspect(dev, catalog, world).effects)
  {
    var o := Inspect(dev, catalog, world);
    if world.login.Refused? {
      LoginFailureOutcome(dev, catalog, world);
      var line := FailureLine(dev.host, world.login.error);
      assert o.effects[1..] == [AppendFailure(line), Release];
      assert [AppendFailure(line), Release][1..] == [Release];
      assert [Release][1..] == [];
      assert Appended([Release]) == "";
      assert Appended([AppendFailure(line), Release]) == line;
    } else {
      NoAppendAppendsNothing(o.effects);
    }
  }

  /** A finishing worker always finds its slot held: the step happens, frees one slot,
      closes one session exactly when the login succeeded, and appends the worker's failure
      line, if any, to the log. */
  lemma FinishFacts(jobs: seq<Job>, catalog: Catalog, s: State, k: nat)
    requires Running(jobs, s) && k < |s.running|
    ensures Step(jobs, catalog, s, Finish(k)).Some?
    ensures var t := Step(jobs, catalog, s, Finish(k)).value;
            var job := jobs[s.running[k]];
            && t.next == s.next && t.running == Without(s.running, k)
            && t.slots.held + 1 == s.slots.held && t.slots.acquired == s.slots.acquired && Balanced(t.slots)
            && t.disconnects == s.disconnects + (if job.world.login.Session? then 1 else 0)
            && (TranscriptName(job.device.host) != FailureLogName ==>
                  LogText(t.disk) == LogText(s.disk) + (if job.world.login.Refused? then FailureLine(job.device.host, job.world.login.error) else ""))
  {
    var job := jobs[s.running[k]];
    var es := Inspect(job.device, catalog, job.world).effects;
    var s0 := s.(running := Without(s.running, k));
    FinishStep(jobs, catalog, s, k);
    assert Balanced(s0.slots) && s0.slots.held >= 1;
    PerformAllFacts(s0, es);
    WorkerAppends(job.device, catalog, job.world);
    if TranscriptName(job.device.host) != FailureLogName {
      PerformAllLog(s0, es);
    }
  }

  /** Finishing the `k`-th running worker applies that worker's effects. */
  lemma FinishStep(jobs: seq<Job>, catalog: Catalog, s: State, k: nat)
    requires Running(jobs, s) && k < |s.running|
    ensures var job := jobs[s.running[k]];
            Step(jobs, catalog, s, Finish(k))
              == PerformAll(s.(running := Without(s.running, k)), Inspect(job.device, catalog, job.world).effects)
  {
  }

  /** The slot accounting the driver keeps: every launched row holds a slot until its worker
      finishes, the slots never exceed the capacity, and one session was closed for each
      finished worker whose login succeeded. */
  predicate Running(jobs: seq<Job>, s: State) {
    && s.next <= |jobs|
    && s.slots.held == |s.running| && Balanced(s.slots)
    && s.slots.acquired == s.next
    && (forall k :: 0 <= k < |s.running| ==> s.running[k] < s.next)
    && s.disconnects + CountIn(jobs, s.running, false) == Among(jobs, s.next, false)
  }

  /** The failure log the driver keeps: it ends at a line boundary, and it holds one line for
      each finished worker whose login was refused. */
  predicate Logged(jobs: seq<Job>, s: State) {
    && Terminated(LogText(s.disk))
    && CountLines(LogText(s.disk)) + CountIn(jobs, s.running, true) == Among(jobs, s.next, true)
  }

  lemma InitRunning(jobs: seq<Job>)
    ensures Running(jobs, Init()) && Logged(jobs, Init())
  {
  }

  /** A launch keeps the slot accounting and the log. */
  lemma LaunchKeepsInvariants(jobs: seq<Job>, catalog: Catalog, s: State)
    requires Running(jobs, s)
    requires Step(jobs, catalog, s, Launch).Some?
    ensures Running(jobs, Step(jobs, catalog, s, Launch).value)
    ensures Logged(jobs, s) ==> Logged(jobs, Step(jobs, catalog, s, Launch).value)
  {
    var t := Step(jobs, catalog, s, Launch).value;
    assert t.running == s.running + [s.next] && t.next == s.next + 1 && t.disk == s.disk;
    assert [s.next][..0] == [];
    CountInAppend(jobs, s.running, [s.next], false);
    CountInAppend(jobs, s.running, [s.next], true);
  }

  /** A finishing worker keeps the slot accounting. */
  lemma FinishKeepsRunning(jobs: seq<Job>, catalog: Catalog, s: State, k: nat)
    requires Running(jobs, s) && k < |s.running|
    ensures Step(jobs, catalog, s, Finish(k)).Some?
    ensures Running(jobs, Step(jobs, catalog, s, Finish(k)).value)
    ensures Step(jobs, catalog, s, Finish(k)).value.next == s.next
    ensures Step(jobs, catalog, s, Finish(k)).value.running == Without(s.running, k)
  {
    FinishFacts(jobs, catalog, s, k);
    var t := Step(jobs, catalog, s, Finish(k)).value;
    CountInWithout(jobs, s.running, k, false);
    assert forall i :: 0 <= i < |t.running| ==> t.running[i] in s.running;
  }

  /** On a tidy roster, a finishing worker adds exactly one log line if its login was
      refused and none otherwise, so the log stays in step with the finished workers. */
  lemma FinishKeepsLogged(jobs: seq<Job>, catalog: Catalog, s: State, k: nat)
    requires Tidy(jobs) && Running(jobs, s) && Logged(jobs, s) && k < |s.running|
    ensures Step(jobs, catalog, s, Finish(k)).Some?
    ensures Logged(jobs, Step(jobs, catalog, s, Finish(k)).value)
  {
    FinishFacts(jobs, catalog, s, k);
    var t := Step(jobs, catalog, s, Finish(k)).value;
    var job := jobs[s.running[k]];
    CountInWithout(jobs, s.running, k, true);
    if job.world.login.Refused? {
      var line := FailureLine(job.device.host, job.world.login.error);
      CountOneLine(FailureMessage(job.device.host, job.world.login.error));
      CountLinesAppend(LogText(s.disk), line);
    } else {
      assert LogText(t.disk) == LogText(s.disk);
    }
  }

  /** Every possible step keeps the slot accounting, and, on a tidy roster, the log. */
  lemma StepKeepsInvariants(jobs: seq<Job>, catalog: Catalog, s: State, ev: Event)
    requires Running(jobs, s)
    requires Step(jobs, catalog, s, ev).Some?
    ensures Running(jobs, Step(jobs, catalog, s, ev).value)
    ensures Tidy(jobs) && Logged(jobs, s) ==> Logged(jobs, Step(jobs, catalog, s, ev).value)
  {
    match ev
    case Launch =>
      LaunchKeepsInvariants(jobs, catalog, s);
    case Finish(k) =>
      FinishKeepsRunning(jobs, catalog, s, k);
      if Tidy(jobs) && Logged(jobs, s) {
        FinishKeepsLogged(jobs, catalog, s, k);
      }
  }

  /** The main thread blocks in `acquire` while every slot is held. */
  lemma LaunchBlocksWhenFull(jobs: seq<Job>, catalog: Catalog, s: State)
    requires s.slots.held == Capacity
    ensures Step(jobs, catalog, s, Launch).None?
  {
  }

  /** Every schedule that can run keeps the invariants at every point it reaches; in
      particular the held slots never exceed the capacity. */
  lemma {:induction false} ExecKeepsInvariants(jobs: seq<Job>, catalog: Catalog, s: State, evs: seq<Event>)
    requires Running(jobs, s)
    requires Exec(jobs, catalog, s, evs).Some?
    ensures Running(jobs, Exec(jobs, catalog, s, evs).value)
    ensures Exec(jobs, catalog, s, evs).value.slots.held <= Capacity
    ensures Tidy(jobs) && Logged(jobs, s) ==> Logged(jobs, Exec(jobs, catalog, s, evs).value)
    decreases |evs|
  {
    if evs != [] {
      var s1 := Step(jobs, catalog, s, evs[0]).value;
      StepKeepsInvariants(jobs, catalog, s, evs[0]);
      ExecKeepsInvariants(jobs, catalog, s1, evs[1..]);
    }
  }

  /** After the join-all barrier every acquire has been matched by one release, no slot is
      held, and exactly one session was closed per row whose login succeeded. */
  lemma JoinedBalanced(jobs: seq<Job>, s: State)
    requires Running(jobs, s) && Joined(jobs, s)
    ensures s.slots.held == 0
    ensures s.slots.acquired == |jobs| && s.slots.released == |jobs|
    ensures s.disconnects == Among(jobs, |jobs|, false)
  {
  }

  /** From a quiet state with `n` rows left, the sequential schedule reaches the barrier. */
  lemma {:induction false} SequentialFrom(jobs: seq<Job>, catalog: Catalog, s: State, n: nat)
    requires Running(jobs, s) && s.running == [] && s.next + n == |jobs|
    ensures Exec(jobs, catalog, s, Sequential(n)).Some?
    ensures Joined(jobs, Exec(jobs, catalog, s, Sequential(n)).value)
    decreases n
  {
    if n > 0 {
      var r := LaunchFinish(jobs, catalog, s);
      ExecAppend(jobs, catalog, s, [Launch, Finish(0)], Sequential(n - 1));
      SequentialFrom(jobs, catalog, r, n - 1);
    }
  }

  /** One launch followed by that worker's finish takes a quiet state to the next quiet state. */
  lemma LaunchFinish(jobs: seq<Job>, catalog: Catalog, s: State) returns (r: State)
    requires Running(jobs, s) && s.running == [] && s.next < |jobs|
    ensures Exec(jobs, catalog, s, [Launch, Finish(0)]) == Some(r)
    ensures Running(jobs, r) && r.running == [] && r.next == s.next + 1
    ensures var job := jobs[s.next];
            TranscriptName(job.device.host) != FailureLogName ==>
              LogText(r.disk) == LogText(s.disk) + (if job.world.login.Refused? then FailureLine(job.device.host, job.world.login.error) else "")
  {
    LaunchKeepsInvariants(jobs, catalog, s);
    var s1 := Step(jobs, catalog, s, Launch).value;
    assert s1.running == [s.next] && s1.next == s.next + 1 && s1.disk == s.disk;
    FinishKeepsRunning(jobs, catalog, s1, 0);
    FinishFacts(jobs, catalog, s1, 0);
    r := Step(jobs, catalog, s1, Finish(0)).value;
    ExecCons(jobs, catalog, s, Launch, [Finish(0)]);
    ExecCons(jobs, catalog, s1, Finish(0), []);
    assert [Launch] + [Finish(0)] == [Launch, Finish(0)];
    assert [Finish(0)] + [] == [Finish(0)];
  }

  /** Running a schedule is running its first event, then the rest. */
  lemma ExecCons(jobs: seq<Job>, catalog: Catalog, s: State, ev: Event, evs: seq<Event>)
    requires Step(jobs, catalog, s, ev).Some?
    ensures Exec(jobs, catalog, s, [ev] + evs) == Exec(jobs, catalog, Step(jobs, catalog, s, ev).value, evs)
  {
    assert ([ev] + evs)[1..] == evs;
  }

  /** Running two schedules back to back is running the first, then the second from where it
      stopped. */
  lemma {:induction false} ExecAppend(jobs: seq<Job>, catalog: Catalog, s: State, a: seq<Event>, b: seq<Event>)
    requires Exec(jobs, catalog, s, a).Some?
    ensures Exec(jobs, catalog, s, a + b) == Exec(jobs, catalog, Exec(jobs, catalog, s, a).value, b)
    decreases |a|
  {
    if a == [] {
      assert a + b == b;
    } else {
      var step := Step(jobs, catalog, s, a[0]);
      assert step.Some?;
      assert [a[0]] + a[1..] == a && [a[0]] + (a[1..] + b) == a + b;
      ExecCons(jobs, catalog, s, a[0], a[1..]);
      ExecCons(jobs, catalog, s, a[0], a[1..] + b);
      ExecAppend(jobs, catalog, step.value, a[1..], b);
    }
  }
}

=== FILE: report.dfy ===
/** The driver's closing report: after every worker has been joined, the number of devices
    is the number of threads created (one per roster row), and the number of failed devices
    is the number of lines `readlines` finds in the failure log, or 0 when no worker created
    it. The report line prints both counts in decimal. */
module Report {
  import opened Wrappers
  import opened Lines
  import opened Classifier
  import opened Worker
  import opened Pool

  /** The two counts the report prints. */
  datatype Summary = Summary(devices: nat, failed: nat)

  /** Reads the counts off the state reached after the join-all barrier. */
  function Summarize(s: State): (r: Summary)
    ensures r.devices == s.next
    ensures r.failed == CountLines(LogText(s.disk))
  {
    Summary(s.next, if FailureLogName in s.disk then CountLines(s.disk[FailureLogName]) else 0)
  }

  /** With no failure log at all, the failed count is zero (the `FileNotFoundError` branch). */
  lemma NoLogNoFailures(s: State)
    requires FailureLogName !in s.disk
    ensures Summarize(s).failed == 0
  {
  }

  /** The report's central promise, for every order in which the workers may finish: on a
      tidy roster, once all workers are joined the report counts every row as a device and
      every refused login as exactly one failed device. */
  lemma SummaryCounts(jobs: seq<Job>, catalog: Catalog, evs: seq<Event>)
    requires Tidy(jobs)
    requires Exec(jobs, catalog, Init(), evs).Some?
    requires Joined(jobs, Exec(jobs, catalog, Init(), evs).value)
    ensures Summarize(Exec(jobs, catalog, Init(), evs).value) == Summary(|jobs|, Among(jobs, |jobs|, true))
  {
    var fin := Exec(jobs, catalog, Init(), evs).value;
    InitRunning(jobs);
    ExecKeepsInvariants(jobs, catalog, Init(), evs);
    assert Logged(jobs, fin);
    assert CountIn(jobs, fin.running, true) == 0;
  }

  /** The failed count never exceeds the device count on a tidy roster. */
  lemma FailedAtMostDevices(jobs: seq<Job>, catalog: Catalog, evs: seq<Event>)
    requires Tidy(jobs)
    requires Exec(jobs, catalog, Init(), evs).Some?
    requires Joined(jobs, Exec(jobs, catalog, Init(), evs).value)
    ensures Summarize(Exec(jobs, catalog, Init(), evs).value).failed <= Summarize(Exec(jobs, catalog, Init(), evs).value).devices
  {
    SummaryCounts(jobs, catalog, evs);
  }

  /** After the join on a tidy roster, every device is accounted for exactly once: the
      failed devices and the closed sessions add up to the device count. */
  lemma FailedPlusClosed(jobs: seq<Job>, catalog: Catalog, evs: seq<Event>)
    requires Tidy(jobs)
    requires Exec(jobs, catalog, Init(), evs).Some?
    requires Joined(jobs, Exec(jobs, catalog, Init(), evs).value)
    ensures var fin := Exec(jobs, catalog, Init(), evs).value;
            Summarize(fin).failed + fin.disconnects == Summarize(fin).devices
  {
    var fin := Exec(jobs, catalog, Init(), evs).value;
    SummaryCounts(jobs, catalog, evs);
    InitRunning(jobs);
    ExecKeepsInvariants(jobs, catalog, Init(), evs);
    JoinedBalanced(jobs, fin);
    AmongSplit(jobs, |jobs|);
  }

  /** The sequential schedule of the source's loop, each worker finishing before the next
      launch, reaches the barrier and reports the same counts. */
  lemma SequentialSummary(jobs: seq<Job>, catalog: Catalog)
    requires Tidy(jobs)
    ensures Exec(jobs, catalog, Init(), Sequential(|jobs|)).Some?
    ensures Summarize(Exec(jobs, catalog, Init(), Sequential(|jobs|)).value) == Summary(|jobs|, Among(jobs, |jobs|, true))
  {
    var s := Start(jobs);
    SequentialFrom(jobs, catalog, s, |jobs|);
    SummaryCounts(jobs, catalog, Sequential(|jobs|));
  }

  /** A single device whose login fails with an exception the classifier does not know, and
      whose message spans two lines, is reported as two failed devices out of one. */
  lemma MultiLineDetailOvercounts(job: Job, catalog: Catalog, j: nat)
    requires job.world.login.Refused? && job.world.login.error.typeName !in Recognised
    requires j < |job.world.login.error.detail| && job.world.login.error.detail[j] == '\n'
    requires TranscriptName(job.device.host) != FailureLogName
    ensures Exec([job], catalog, Init(), Sequential(1)).Some?
    ensures Joined([job], Exec([job], catalog, Init(), Sequential(1)).value)
    ensures Among([job], 1, true) == 1
    ensures Summarize(Exec([job], catalog, Init(), Sequential(1)).value).failed >= 2
  {
    var jobs := [job];
    var s := Start(jobs);
    var r := LaunchFinish(jobs, catalog, s);
    assert Sequential(1) == [Launch, Finish(0)] + [];
    ExecAppend(jobs, catalog, s, [Launch, Finish(0)], []);
    assert LogText(r.disk) == FailureLine(job.device.host, job.world.login.error);
    BrokenDetailCountsTwice(job.device.host, job.world.login.error, j);
  }

  /** The start state, with the invariants it meets. */
  lemma Start(jobs: seq<Job>) returns (s: State)
    ensures s == Init() && Running(jobs, s) && Logged(jobs, s) && s.running == [] && s.next == 0
  {
    InitRunning(jobs);
    s := Init();
  }

  /** The corrected failure log: one flattened line per refused device, in append order. */
  function SafeLog(refusals: seq<(string, LoginError)>): (log: string)
    ensures Terminated(log)
    decreases |refusals|
  {
    if refusals == [] then ""
    else SafeLog(refusals[..|refusals| - 1]) + SafeFailureLine(refusals[|refusals| - 1].0, refusals[|refusals| - 1].1)
  }

  /** With the corrected line, the log's line count is exactly the number of refusals, whatever
      the hosts and exception messages contain. */
  lemma {:induction false} SafeLogCounts(refusals: seq<(string, LoginError)>)
    ensures CountLines(SafeLog(refusals)) == |refusals|
    decreases |refusals|
  {
    if refusals != [] {
      var last := refusals[|refusals| - 1];
      SafeLogCounts(refusals[..|refusals| - 1]);
      CountLinesAppend(SafeLog(refusals[..|refusals| - 1]), SafeFailureLine(last.0, last.1));
      SafeFailureLineCountsOnce(last.0, last.1);
    }
  }

  /** The character of a decimal digit. */
  function DigitChar(d: nat): (c: char)
    requires d < 10
    ensures '0' <= c <= '9'
  {
    (('0' as int) + d) as char
  }

  /** The value of a character read as a decimal digit. */
  function DigitValue(c: char): int {
    c as int - '0' as int
  }

  /** The decimal digits Python's f-string prints for a count. */
  function Decimal(n: nat): (r: string)
    ensures 1 <= |r| && forall i :: 0 <= i < |r| ==> '0' <= r[i] <= '9'
    ensures (|r| > 1) == (n >= 10)
    decreases n
  {
    if n < 10 then [DigitChar(n)] else Decimal(n / 10) + [DigitChar(n % 10)]
  }

  /** The value of a string read as decimal digits, most significant first (what `int`
      computes for a string of digits). */
  function ValueOf(s: string): int
    decreases |s|
  {
    if s == [] then 0 else ValueOf(s[..|s| - 1]) * 10 + DigitValue(s[|s| - 1])
  }

  /** Reading the printed digits back gives the count. */
  lemma {:induction false} DecimalRoundTrip(n: nat)
    ensures ValueOf(Decimal(n)) == n
    decreases n
  {
    var d := Decimal(n);
    if n < 10 {
      assert d[..0] == [];
    } else {
      DecimalRoundTrip(n / 10);
      assert d[..|d| - 1] == Decimal(n / 10);
      assert DigitValue(d[|d| - 1]) == n % 10;
    }
  }

  const ReportOpening := "巡检完成，共巡检 "
  const DevicesWord := " 台设备，"

  /** The report line (without `print`'s own trailing newline); the elapsed time is given as
      text, since the clock is not modelled. The device count can be read back from the line
      right after its opening words, and the failed count right after the device count and
      its unit. */
  function ReportLine(r: Summary, elapsed: string): (line: string)
    ensures var b := |ReportOpening| + |Decimal(r.devices)|;
            var c := b + |DevicesWord|;
            && c + |Decimal(r.failed)| <= |line|
            && ValueOf(line[|ReportOpening|..b]) == r.devices
            && ValueOf(line[c..c + |Decimal(r.failed)|]) == r.failed
  {
    var dev := Decimal(r.devices);
    var fail := Decimal(r.failed);
    var tail := " 台异常，共用时 " + elapsed + " 秒。\n";
    var line := ReportOpening + dev + DevicesWord + fail + tail;
    assert line == ReportOpening + dev + (DevicesWord + fail + tail);
    assert line == (ReportOpening + dev + DevicesWord) + fail + tail;
    DigitsAt(ReportOpening, r.devices, DevicesWord + fail + tail);
    DigitsAt(ReportOpening + dev + DevicesWord, r.failed, tail);
    line
  }

  /** The middle part of a three-part concatenation sits at its offset. */
  lemma Slice3(x: string, y: string, z: string)
    ensures (x + y + z)[..|x|] == x
    ensures (x + y + z)[|x|..|x| + |y|] == y
    ensures x + y + z == (x + y) + z && (x + y) + z == x + (y + z)
  {
  }

  /** Printed digits embedded in a line read back as their count. */
  lemma DigitsAt(x: string, n: nat, z: string)
    ensures |x| + |Decimal(n)| <= |x + Decimal(n) + z|
    ensures ValueOf((x + Decimal(n) + z)[|x|..|x| + |Decimal(n)|]) == n
  {
    Slice3(x, Decimal(n), z);
    DecimalRoundTrip(n);
  }
}

=== FILE: transcript.dfy ===
/** The command runner inside `inspection`: for each cell of the device type's catalog
    column, in order, a string cell is sent to the open session and its output, or a
    timeout placeholder, is written to the device's transcript after a separator line.
    Cells that are not strings (empty spreadsheet cells read as NaN) are skipped. */
module Transcript {
  import opened Wrappers

  /** One cell of a catalog column. */
  datatype Cell = Command(text: string) | NonText

  /** What sending one command to the session does: returns its output, raises netmiko's
      `ReadTimeout`, or raises any other exception (named by its type name). */
  datatype Reply = Output(text: string) | ReadTimeout | Raised(typeName: string)

  /** Why a run of commands ended early with an exception escaping `inspection`. The
      `finally` around each send writes `show` before the exception propagates: the
      previous command's text when there was one, otherwise reading `show` raises
      `UnboundLocalError` and nothing more is written. */
  datatype Stop = SendFailed(typeName: string) | ShowUnbound(typeName: string)

  /** One command's entry in the transcript: the command and the text recorded for it. */
  datatype Block = Block(command: string, text: string, timedOut: bool)

  /** The result of a run: the text written after the header, the commands sent in order,
      the console notices printed, and whether an exception ended it early. */
  datatype Run = Run(text: string, sent: seq<string>, notices: seq<string>, stop: Option<Stop>)

  const Bar: string := "=========="

  /** The line (and blank line) that opens a section of the transcript. */
  function Separator(title: string): string {
    Bar + " " + title + " " + Bar + "\n\n"
  }

  /** The transcript's opening: the "Local Time" separator, then the timestamp. */
  function Header(stamp: string): string {
    Separator("Local Time") + stamp + "\n\n"
  }

  /** The text recorded as a command's output when it timed out. */
  function Placeholder(cmd: string): string {
    "命令 " + cmd + " 执行超时！"
  }

  /** The console notice printed when a command timed out. */
  function TimeoutNotice(host: string, cmd: string): string {
    "设备 " + host + " " + Placeholder(cmd)
  }

  /** The text recorded for a command whose send did not raise anything but `ReadTimeout`. */
  function Answer(cmd: string, r: Reply): string
    requires !r.Raised?
  {
    if r.Output? then r.text else Placeholder(cmd)
  }

  function RenderBlock(b: Block): string {
    Separator(b.command) + b.text + "\n\n"
  }

  /** The blocks written one after another. */
  function Render(bs: seq<Block>): string {
    if bs == [] then "" else RenderBlock(bs[0]) + Render(bs[1..])
  }

  /** The commands of the blocks, in order. */
  function Commands(bs: seq<Block>): seq<string> {
    seq(|bs|, k requires 0 <= k < |bs| => bs[k].command)
  }

  /** One timeout notice per timed-out block, in order. */
  function TimeoutNotices(host: string, bs: seq<Block>): seq<string> {
    if bs == [] then []
    else (if bs[0].timedOut then [TimeoutNotice(host, bs[0].command)] else []) + TimeoutNotices(host, bs[1..])
  }

  /** The rows, from `from` on, whose cell is a command, in increasing order (that no
      command row is missing is `RowsComplete`). */
  function Rows(cells: seq<Cell>, from: nat): (rows: seq<nat>)
    requires from <= |cells|
    ensures forall k :: 0 <= k < |rows| ==> from <= rows[k] < |cells| && cells[rows[k]].Command?
    ensures forall k, l :: 0 <= k < l < |rows| ==> rows[k] < rows[l]
    decreases |cells| - from
  {
    if from == |cells| then []
    else if cells[from].Command? then [from] + Rows(cells, from + 1)
    else Rows(cells, from + 1)
  }

  /** Every command row from `from` on is listed by `Rows`, so no command is skipped. */
  lemma {:induction false} RowsComplete(cells: seq<Cell>, from: nat, r: nat)
    requires from <= r < |cells| && cells[r].Command?
    ensures r in Rows(cells, from)
    decreases |cells| - from
  {
    if from < r {
      RowsComplete(cells, from + 1, r);
    }
  }

  /** Every listed row is a command whose send did not raise anything but `ReadTimeout`. */
  predicate Answered(cells: seq<Cell>, reply: nat -> Reply, rows: seq<nat>) {
    forall k :: 0 <= k < |rows| ==> rows[k] < |cells| && cells[rows[k]].Command? && !reply(rows[k]).Raised?
  }

  /** No command row from `from` on has a send that raises anything but `ReadTimeout`. */
  predicate NoneRaised(cells: seq<Cell>, reply: nat -> Reply, from: nat) {
    forall r :: from <= r < |cells| && cells[r].Command? ==> !reply(r).Raised?
  }

  /** The block the transcript records for an answered command row. */
  function BlockAt(cells: seq<Cell>, reply: nat -> Reply, r: nat): Block
    requires r < |cells| && cells[r].Command? && !reply(r).Raised?
  {
    Block(cells[r].text, Answer(cells[r].text, reply(r)), reply(r).ReadTimeout?)
  }

  /** The reference transcript: one block per listed row, in the order listed. */
  function Plan(cells: seq<Cell>, reply: nat -> Reply, rows: seq<nat>): (p: seq<Block>)
    requires Answered(cells, reply, rows)
    ensures |p| == |rows|
  {
    if rows == [] then [] else [BlockAt(cells, reply, rows[0])] + Plan(cells, reply, rows[1..])
  }

  /** Runs the column from row `i` on, `show` holding the last text written (None while the
      Python variable is still unbound). */
  function RunFrom(host: string, cells: seq<Cell>, reply: nat -> Reply, i: nat, show: Option<string>): Run
    requires i <= |cells|
    decreases |cells| - i
  {
    if i == |cells| then Run("", [], [], None)
    else match cells[i]
      case NonText => RunFrom(host, cells, reply, i + 1, show)
      case Command(c) =>
        match reply(i)
        case Raised(n) =>
          (match show
           case Some(s) => Run(Separator(c) + s + "\n\n", [c], [], Some(SendFailed(n)))
           case None => Run(Separator(c), [c], [], Some(ShowUnbound(n))))
        case _ =>
          var a := Answer(c, reply(i));
          var rest := RunFrom(host, cells, reply, i + 1, Some(a));
          var notice := if reply(i).ReadTimeout? then [TimeoutNotice(host, c)] else [];
          Run(Separator(c) + a + "\n\n" + rest.text, [c] + rest.sent, notice + rest.notices, rest.stop)
  }

  /** Runs a whole column, as `inspection` does, with `show` not yet bound. */
  function RunColumn(host: string, cells: seq<Cell>, reply: nat -> Reply): Run {
    RunFrom(host, cells, reply, 0, None)
  }

  /** A plan of a row list that starts with row `r` starts with `r`'s block. */
  lemma PlanCons(cells: seq<Cell>, reply: nat -> Reply, r: nat, rows: seq<nat>)
    requires r < |cells| && cells[r].Command? && !reply(r).Raised?
    requires Answered(cells, reply, rows)
    ensures Answered(cells, reply, [r] + rows)
    ensures Plan(cells, reply, [r] + rows) == [BlockAt(cells, reply, r)] + Plan(cells, reply, rows)
  {
    assert ([r] + rows)[1..] == rows;
  }

  /** One answered command: its block, then the rest of the run. */
  lemma RunFromAnswered(host: string, cells: seq<Cell>, reply: nat -> Reply, i: nat, show: Option<string>)
    requires i < |cells| && cells[i].Command? && !reply(i).Raised?
    ensures var b := BlockAt(cells, reply, i);
            var more := RunFrom(host, cells, reply, i + 1, Some(b.text));
            RunFrom(host, cells, reply, i, show)
              == Run(RenderBlock(b) + more.text, [b.command] + more.sent,
                     (if b.timedOut then [TimeoutNotice(host, b.command)] else []) + more.notices, more.stop)
  {
  }

  /** When no send raises, the run writes the reference transcript: one block per command
      cell in catalog order, sends exactly those commands, prints one notice per timeout,
      and ends normally. */
  lemma {:induction false} RunFollowsPlan(host: string, cells: seq<Cell>, reply: nat -> Reply, i: nat, show: Option<string>)
    requires i <= |cells|
    requires NoneRaised(cells, reply, i)
    ensures Answered(cells, reply, Rows(cells, i))
    ensures var run := RunFrom(host, cells, reply, i, show);
            var plan := Plan(cells, reply, Rows(cells, i));
            run == Run(Render(plan), Commands(plan), TimeoutNotices(host, plan), None)
    decreases |cells| - i
  {
    var rows := Rows(cells, i);
    if i == |cells| {
    } else if cells[i].NonText? {
      RunFollowsPlan(host, cells, reply, i + 1, show);
      assert rows == Rows(cells, i + 1);
      assert RunFrom(host, cells, reply, i, show) == RunFrom(host, cells, reply, i + 1, show);
    } else {
      var b := BlockAt(cells, reply, i);
      var rest := Rows(cells, i + 1);
      RunFollowsPlan(host, cells, reply, i + 1, Some(b.text));
      RunFromAnswered(host, cells, reply, i, show);
      assert rows == [i] + rest;
      PlanCons(cells, reply, i, rest);
      FollowCompose(host, b, Plan(cells, reply, rest),
                    RunFrom(host, cells, reply, i, show), RunFrom(host, cells, reply, i + 1, Some(b.text)));
    }
  }

  /** A run that writes one answered block and then follows the rest of a plan follows the
      whole plan. */
  lemma FollowCompose(host: string, b: Block, tail: seq<Block>, run: Run, more: Run)
    requires run == Run(RenderBlock(b) + more.text, [b.command] + more.sent,
                        (if b.timedOut then [TimeoutNotice(host, b.command)] else []) + more.notices, more.stop)
    requires more == Run(Render(tail), Commands(tail), TimeoutNotices(host, tail), None)
    ensures run == Run(Render([b] + tail), Commands([b] + tail), TimeoutNotices(host, [b] + tail), None)
  {
    var plan := [b] + tail;
    assert plan[1..] == tail;
    assert Commands(plan) == [b.command] + Commands(tail);
  }

  /** The text `show` holds before the command after `plan`: the last block's text, or the
      value it held before the run when the plan is empty. */
  function LastShow(show: Option<string>, plan: seq<Block>): Option<string> {
    if plan == [] then show else Some(plan[|plan| - 1].text)
  }

  /** The transcript a run stopped at the `k`-th command has written: the blocks before it,
      its separator, then the stale `show` if there is one. */
  function StoppedText(plan: seq<Block>, cmd: string, last: Option<string>): string {
    Render(plan) + Separator(cmd) + (if last.Some? then last.value + "\n\n" else "")
  }

  /** The first `k` rows are answered and the `k`-th raises. */
  predicate FirstRaiseAt(cells: seq<Cell>, reply: nat -> Reply, rows: seq<nat>, k: nat) {
    && k < |rows|
    && Answered(cells, reply, rows[..k])
    && rows[k] < |cells| && cells[rows[k]].Command? && reply(rows[k]).Raised?
  }

  /** When the `k`-th command raises something other than `ReadTimeout` and none before it
      does, the run writes the blocks before it, that command's separator, then the stale
      `show` if there is one; it has sent the commands up to and including that one, and
      the exception escapes: the send error itself, or `UnboundLocalError` when `show` was
      never bound. */
  lemma {:induction false} RunStopsAtFirstRaise(host: string, cells: seq<Cell>, reply: nat -> Reply, i: nat, show: Option<string>, k: nat)
    requires i <= |cells|
    requires FirstRaiseAt(cells, reply, Rows(cells, i), k)
    ensures var rows := Rows(cells, i);
            var run := RunFrom(host, cells, reply, i, show);
            var plan := Plan(cells, reply, rows[..k]);
            var cmd := cells[rows[k]].text;
            var name := reply(rows[k]).typeName;
            var last := LastShow(show, plan);
            && run.sent == Commands(plan) + [cmd]
            && run.notices == TimeoutNotices(host, plan)
            && run.text == StoppedText(plan, cmd, last)
            && run.stop == Some(if last.Some? then SendFailed(name) else ShowUnbound(name))
    decreases |cells| - i, 1
  {
    var rows := Rows(cells, i);
    if cells[i].NonText? {
      RunStopsAtFirstRaise(host, cells, reply, i + 1, show, k);
      assert rows == Rows(cells, i + 1);
      assert RunFrom(host, cells, reply, i, show) == RunFrom(host, cells, reply, i + 1, show);
    } else if k == 0 {
      assert rows[0] == i;
    } else {
      RunStopsAfterAnswer(host, cells, reply, i, show, k);
    }
  }

  /** The step of `RunStopsAtFirstRaise` where row `i` is an answered command. */
  lemma {:induction false} RunStopsAfterAnswer(host: string, cells: seq<Cell>, reply: nat -> Reply, i: nat, show: Option<string>, k: nat)
    requires i < |cells| && cells[i].Command? && 0 < k
    requires FirstRaiseAt(cells, reply, Rows(cells, i), k)
    ensures var rows := Rows(cells, i);
            var run := RunFrom(host, cells, reply, i, show);
            var plan := Plan(cells, reply, rows[..k]);
            var cmd := cells[rows[k]].text;
            var name := reply(rows[k]).typeName;
            var last := LastShow(show, plan);
            && run.sent == Commands(plan) + [cmd]
            && run.notices == TimeoutNotices(host, plan)
            && run.text == StoppedText(plan, cmd, last)
            && run.stop == Some(if last.Some? then SendFailed(name) else ShowUnbound(name))
    decreases |cells| - i, 0
  {
    var rows := Rows(cells, i);
    var rest := Rows(cells, i + 1);
    FirstRaiseShifts(cells, reply, i, k);
    var b := BlockAt(cells, reply, i);
    RunFromAnswered(host, cells, reply, i, show);
    RunStopsAtFirstRaise(host, cells, reply, i + 1, Some(b.text), k - 1);
    var tail := Plan(cells, reply, rest[..k - 1]);
    PlanCons(cells, reply, i, rest[..k - 1]);
    assert Plan(cells, reply, rows[..k]) == [b] + tail;
    StopCompose(host, b, tail, cells[rows[k]].text, reply(rows[k]).typeName, show,
                RunFrom(host, cells, reply, i, show), RunFrom(host, cells, reply, i + 1, Some(b.text)));
  }

  /** When row `i` is a command and the first raise is `k > 0` rows on, row `i` is answered and
      the first raise among the later rows is one row earlier. */
  lemma FirstRaiseShifts(cells: seq<Cell>, reply: nat -> Reply, i: nat, k: nat)
    requires i < |cells| && cells[i].Command? && 0 < k
    requires FirstRaiseAt(cells, reply, Rows(cells, i), k)
    ensures !reply(i).Raised?
    ensures Rows(cells, i)[..k] == [i] + Rows(cells, i + 1)[..k - 1]
    ensures Rows(cells, i + 1)[k - 1] == Rows(cells, i)[k]
    ensures FirstRaiseAt(cells, reply, Rows(cells, i + 1), k - 1)
  {
    var rows := Rows(cells, i);
    var rest := Rows(cells, i + 1);
    assert rows == [i] + rest;
    assert rows[..k][0] == i;
    assert rows[..k] == [i] + rest[..k - 1];
    assert rest[..k - 1] == rows[..k][1..];
  }

  /** A run that writes one answered block and then stops as the rest of the run did has
      stopped as the whole plan prescribes. */
  lemma StopCompose(host: string, b: Block, tail: seq<Block>, cmd: string, name: string, show: Option<string>, run: Run, more: Run)
    requires run == Run(RenderBlock(b) + more.text, [b.command] + more.sent,
                        (if b.timedOut then [TimeoutNotice(host, b.command)] else []) + more.notices, more.stop)
    requires var last := LastShow(Some(b.text), tail);
             && more.sent == Commands(tail) + [cmd]
             && more.notices == TimeoutNotices(host, tail)
             && more.text == StoppedText(tail, cmd, last)
             && more.stop == Some(if last.Some? then SendFailed(name) else ShowUnbound(name))
    ensures var plan := [b] + tail;
            var last := LastShow(show, plan);
            && run.sent == Commands(plan) + [cmd]
            && run.notices == TimeoutNotices(host, plan)
            && run.text == StoppedText(plan, cmd, last)
            && run.stop == Some(if last.Some? then SendFailed(name) else ShowUnbound(name))
  {
    var plan := [b] + tail;
    assert plan[1..] == tail;
    assert LastShow(show, plan) == LastShow(Some(b.text), tail);
    assert Commands(plan) == [b.command] + Commands(tail);
    StoppedTextCons(b, tail, cmd, LastShow(show, plan));
  }

  lemma StoppedTextCons(b: Block, tail: seq<Block>, cmd: string, last: Option<string>)
    ensures StoppedText([b] + tail, cmd, last) == RenderBlock(b) + StoppedText(tail, cmd, last)
  {
    assert ([b] + tail)[1..] == tail;
  }

  /** A run ends early exactly when some command cell's send raises something other than
      `ReadTimeout`. */
  lemma {:induction false} RunStopsIffRaised(host: string, cells: seq<Cell>, reply: nat -> Reply, i: nat, show: Option<string>)
    requires i <= |cells|
    ensures RunFrom(host, cells, reply, i, show).stop.None? <==> NoneRaised(cells, reply, i)
    decreases |cells| - i
  {
    if i < |cells| {
      if cells[i].NonText? {
        RunStopsIffRaised(host, cells, reply, i + 1, show);
      } else if !reply(i).Raised? {
        RunStopsIffRaised(host, cells, reply, i + 1, Some(Answer(cells[i].text, reply(i))));
      }
    }
  }

  /** Running a whole column, as `inspection` does, ends early exactly when some send raises
      something other than `ReadTimeout`, and otherwise follows the reference transcript. */
  lemma ColumnFacts(host: string, cells: seq<Cell>, reply: nat -> Reply)
    ensures RunColumn(host, cells, reply).stop.None? <==> NoneRaised(cells, reply, 0)
    ensures NoneRaised(cells, reply, 0) ==>
      && Answered(cells, reply, Rows(cells, 0))
      && var plan := Plan(cells, reply, Rows(cells, 0));
         RunColumn(host, cells, reply) == Run(Render(plan), Commands(plan), TimeoutNotices(host, plan), None)
  {
    RunStopsIffRaised(host, cells, reply, 0, None);
    if NoneRaised(cells, reply, 0) {
      RunFollowsPlan(host, cells, reply, 0, None);
    }
  }
}

=== FILE: worker.dfy ===
/** One device's worker, the body of `inspection`: try to log in; on failure classify the
    exception, print the message and append it to the shared failure log; on success write
    the device's transcript; in every case disconnect an established session and release
    the worker's pool slot. The worker is modelled as the ordered list of its observable
    effects; the transport's answers and the clock are given as a `World`. */
module Worker {
  import opened Wrappers
  import opened Classifier
  import opened Transcript

  /** The roster fields the core reads; the other connection parameters only reach the
      transport, whose answer is part of the `World`. */
  datatype Device = Device(host: string, deviceType: string)

  /** What `ConnectHandler(**login_info)` does: returns a session or raises. */
  datatype Login = Session | Refused(error: LoginError)

  /** Everything outside the core that a worker observes: the login result, the answer to
      the command in each catalog row, the timestamp text and the rounded elapsed time. */
  datatype World = World(login: Login, reply: nat -> Reply, stamp: string, elapsed: string)

  /** Device type to catalog column, as the loader builds it. */
  type Catalog = map<string, seq<Cell>>

  /** An observable effect of a worker. `WriteTranscript` stands for opening `<host>.log`
      for writing and the text it holds when closed. */
  datatype Effect =
    | Notice(text: string)
    | AppendFailure(line: string)
    | WriteTranscript(name: string, content: string)
    | Disconnect
    | Release

  /** An exception escaping the worker: the device type has no catalog column (`KeyError`),
      or a send failed with something other than `ReadTimeout`. */
  datatype Crash = UnknownDeviceType(deviceType: string) | CommandCrash(stop: Stop)

  /** How the worker ended. */
  datatype Ending = LoginFailed(category: Category) | Completed | Aborted(crash: Crash)

  /** A worker's effects in order, the commands it sent, and how it ended. */
  datatype Outcome = Outcome(effects: seq<Effect>, sent: seq<string>, ending: Ending)

  const FailureLogName: string := "01log.log"

  function TranscriptName(host: string): string {
    host + ".log"
  }

  function InspectingNotice(host: string): string {
    "设备 " + host + " 正在巡检..."
  }

  function DoneNotice(host: string, elapsed: string): string {
    "设备 " + host + " 巡检完成，用时 " + elapsed + " 秒。"
  }

  /** The kinds of effect, for counting. */
  datatype Kind = NoticeKind | AppendKind | WriteKind | DisconnectKind | ReleaseKind

  function KindOf(e: Effect): Kind {
    match e
    case Notice(_) => NoticeKind
    case AppendFailure(_) => AppendKind
    case WriteTranscript(_, _) => WriteKind
    case Disconnect => DisconnectKind
    case Release => ReleaseKind
  }

  /** How many effects of kind `k` the list holds. */
  function Tally(es: seq<Effect>, k: Kind): nat {
    if es == [] then 0 else (if KindOf(es[0]) == k then 1 else 0) + Tally(es[1..], k)
  }

  lemma {:induction false} TallyAppend(a: seq<Effect>, b: seq<Effect>, k: Kind)
    ensures Tally(a + b, k) == Tally(a, k) + Tally(b, k)
    decreases |a|
  {
    if a == [] {
      assert a + b == b;
    } else {
      assert (a + b)[1..] == a[1..] + b;
      TallyAppend(a[1..], b, k);
    }
  }

  function Indicator(e: Effect, k: Kind): nat {
    if KindOf(e) == k then 1 else 0
  }

  lemma TallyOne(e: Effect, k: Kind)
    ensures Tally([e], k) == Indicator(e, k)
  {
    assert [e][1..] == [];
  }

  lemma TallyThree(a: Effect, b: Effect, c: Effect, k: Kind)
    ensures Tally([a, b, c], k) == Indicator(a, k) + Indicator(b, k) + Indicator(c, k)
  {
    assert [a, b, c] == [a] + [b] + [c];
    TallyAppend([a] + [b], [c], k);
    TallyAppend([a], [b], k);
    TallyOne(a, k);
    TallyOne(b, k);
    TallyOne(c, k);
  }

  /** The console notices printed while the commands ran. */
  function Printed(texts: seq<string>): (r: seq<Effect>)
    ensures |r| == |texts|
    ensures forall k :: 0 <= k < |r| ==> r[k] == Notice(texts[k])
  {
    if texts == [] then [] else [Notice(texts[0])] + Printed(texts[1..])
  }

  lemma {:induction false} PrintedTally(texts: seq<string>, k: Kind)
    ensures Tally(Printed(texts), k) == if k == NoticeKind then |texts| else 0
    decreases |texts|
  {
    if texts != [] {
      PrintedTally(texts[1..], k);
      assert Printed(texts)[1..] == Printed(texts[1..]);
    }
  }

  /** The effects of a worker whose login succeeded: the "inspecting" notice, the timeout
      notices, the transcript, the completion notice when the run finished normally, then
      the `finally` block's disconnect and release. */
  function SessionEffects(host: string, timeouts: seq<string>, name: string, content: string, done: Option<string>): (es: seq<Effect>)
    ensures |es| >= 2
    ensures Tally(es, ReleaseKind) == 1 && es[|es| - 1] == Release
    ensures Tally(es, DisconnectKind) == 1 && es[|es| - 2] == Disconnect
    ensures Tally(es, AppendKind) == 0
    ensures Tally(es, WriteKind) == 1
    ensures forall k :: 0 <= k < |es| && es[k].WriteTranscript? ==> es[k] == WriteTranscript(name, content)
  {
    var start := [Notice(InspectingNotice(host))] + Printed(timeouts);
    var last := Closing(done);
    forall k: Kind {
      ClosingTally(done, k);
    }
    SessionTally(host, timeouts, name, content, last, AppendKind);
    SessionTally(host, timeouts, name, content, last, WriteKind);
    SessionTally(host, timeouts, name, content, last, DisconnectKind);
    SessionTally(host, timeouts, name, content, last, ReleaseKind);
    start + [WriteTranscript(name, content)] + last
  }

  /** The effects after the transcript is closed: the completion notice when the run
      finished normally, then the `finally` block. */
  function Closing(done: Option<string>): seq<Effect> {
    (if done.Some? then [Notice(done.value)] else []) + [Disconnect, Release]
  }

  lemma ClosingTally(done: Option<string>, k: Kind)
    ensures Tally(Closing(done), k) ==
      (if k == NoticeKind && done.Some? then 1 else 0) + (if k == DisconnectKind || k == ReleaseKind then 1 else 0)
  {
    var pre: seq<Effect> := if done.Some? then [Notice(done.value)] else [];
    assert Closing(done) == pre + ([Disconnect] + [Release]);
    TallyAppend(pre, [Disconnect] + [Release], k);
    TallyAppend([Disconnect], [Release], k);
    TallyOne(Disconnect, k);
    TallyOne(Release, k);
    if done.Some? {
      TallyOne(Notice(done.value), k);
    }
  }

  lemma SessionTally(host: string, timeouts: seq<string>, name: string, content: string, last: seq<Effect>, k: Kind)
    ensures var es := [Notice(InspectingNotice(host))] + Printed(timeouts) + [WriteTranscript(name, content)] + last;
            Tally(es, k) == (if k == NoticeKind then 1 + |timeouts| else 0) + (if k == WriteKind then 1 else 0) + Tally(last, k)
  {
    var start := [Notice(InspectingNotice(host))] + Printed(timeouts);
    PrintedTally(timeouts, k);
    TallyOne(Notice(InspectingNotice(host)), k);
    TallyOne(WriteTranscript(name, content), k);
    TallyAppend([Notice(InspectingNotice(host))], Printed(timeouts), k);
    TallyAppend(start, [WriteTranscript(name, content)], k);
    TallyAppend(start + [WriteTranscript(name, content)], last, k);
  }

  /** The worker for one device. Every path ends by releasing the slot exactly once, after
      disconnecting exactly when a session was established; a failed login appends exactly
      one failure line and writes no transcript, and an established session writes exactly
      one transcript, opened with the header, and appends no failure line. */
  function Inspect(dev: Device, catalog: Catalog, world: World): (o: Outcome)
    ensures Tally(o.effects, ReleaseKind) == 1
    ensures o.effects != [] && o.effects[|o.effects| - 1] == Release
    ensures Tally(o.effects, DisconnectKind) == if world.login.Session? then 1 else 0
    ensures world.login.Session? ==> |o.effects| >= 2 && o.effects[|o.effects| - 2] == Disconnect
    ensures o.ending.LoginFailed? <==> world.login.Refused?
    ensures Tally(o.effects, AppendKind) == if world.login.Refused? then 1 else 0
    ensures Tally(o.effects, WriteKind) == if world.login.Session? then 1 else 0
    ensures forall k :: 0 <= k < |o.effects| && o.effects[k].WriteTranscript? ==>
              o.effects[k].name == TranscriptName(dev.host) && Header(world.stamp) <= o.effects[k].content
  {
    match world.login
    case Refused(e) =>
      var es := [Notice(FailureMessage(dev.host, e)), AppendFailure(FailureLine(dev.host, e)), Release];
      TallyThree(es[0], es[1], es[2], AppendKind);
      TallyThree(es[0], es[1], es[2], WriteKind);
      TallyThree(es[0], es[1], es[2], DisconnectKind);
      TallyThree(es[0], es[1], es[2], ReleaseKind);
      Outcome(es, [], LoginFailed(Classify(e)))
    case Session =>
      var name := TranscriptName(dev.host);
      var head := Header(world.stamp);
      if dev.deviceType !in catalog then
        Outcome(SessionEffects(dev.host, [], name, head, None), [], Aborted(UnknownDeviceType(dev.deviceType)))
      else
        var run := RunColumn(dev.host, catalog[dev.deviceType], world.reply);
        var done := if run.stop.None? then Some(DoneNotice(dev.host, world.elapsed)) else None;
        var ending := if run.stop.None? then Completed else Aborted(CommandCrash(run.stop.value));
        Outcome(SessionEffects(dev.host, run.notices, name, head + run.text, done), run.sent, ending)
  }

  /** A failed login prints the classifier's message, appends that same message followed by
      one newline to the failure log, sends nothing, writes no transcript, and releases. */
  lemma LoginFailureOutcome(dev: Device, catalog: Catalog, world: World)
    requires world.login.Refused?
    ensures var o := Inspect(dev, catalog, world);
            var m := FailureMessage(dev.host, world.login.error);
            && o.effects == [Notice(m), AppendFailure(m + "\n"), Release]
            && o.sent == []
            && o.ending == LoginFailed(Classify(world.login.error))
  {
  }

  /** With a session, a catalog column for the device type and no send raising anything but
      `ReadTimeout`, the worker completes: it sends exactly the column's command cells in
      order, prints a notice per timeout, writes the header followed by the reference
      transcript, prints the completion notice, then disconnects and releases. */
  lemma CompletedOutcome(dev: Device, catalog: Catalog, world: World)
    requires world.login.Session? && dev.deviceType in catalog
    requires NoneRaised(catalog[dev.deviceType], world.reply, 0)
    ensures Answered(catalog[dev.deviceType], world.reply, Rows(catalog[dev.deviceType], 0))
    ensures var o := Inspect(dev, catalog, world);
            var plan := Plan(catalog[dev.deviceType], world.reply, Rows(catalog[dev.deviceType], 0));
            && o.ending == Completed
            && o.sent == Commands(plan)
            && o.effects == [Notice(InspectingNotice(dev.host))] + Printed(TimeoutNotices(dev.host, plan))
                 + [WriteTranscript(TranscriptName(dev.host), Header(world.stamp) + Render(plan))]
                 + [Notice(DoneNotice(dev.host, world.elapsed)), Disconnect, Release]
  {
    RunFollowsPlan(dev.host, catalog[dev.deviceType], world.reply, 0, None);
  }

  /** The worker completes (prints its completion notice and lets no exception escape)
      exactly when the login succeeds, the device type has a catalog column, and no command
      in it raises anything but `ReadTimeout`. */
  lemma CompletesIff(dev: Device, catalog: Catalog, world: World)
    ensures Inspect(dev, catalog, world).ending == Completed <==>
      world.login.Session? && dev.deviceType in catalog && NoneRaised(catalog[dev.deviceType], world.reply, 0)
  {
    if world.login.Session? && dev.deviceType in catalog {
      RunStopsIffRaised(dev.host, catalog[dev.deviceType], world.reply, 0, None);
    }
  }

  /** A device type missing from the catalog is not classified: the transcript has already
      been opened and given its header when the lookup fails, nothing is sent, no failure
      line is appended, the session is still closed and the slot released, and the
      exception escapes the worker. */
  lemma UnknownDeviceTypeOutcome(dev: Device, catalog: Catalog, world: World)
    requires world.login.Session? && dev.deviceType !in catalog
    ensures var o := Inspect(dev, catalog, world);
            && o.ending == Aborted(UnknownDeviceType(dev.deviceType))
            && o.sent == []
            && o.effects == [Notice(InspectingNotice(dev.host)), WriteTranscript(TranscriptName(dev.host), Header(world.stamp)),
                             Disconnect, Release]
  {
    assert Printed([]) == [];
  }

  /** When the `k`-th command's send raises something other than `ReadTimeout`, the worker
      has sent the commands up to that one, its transcript ends with that command's
      separator and the stale `show` (nothing when it is the first command), and it still
      disconnects and releases before the exception escapes. */
  lemma SendFailureOutcome(dev: Device, catalog: Catalog, world: World, k: nat)
    requires world.login.Session? && dev.deviceType in catalog
    requires FirstRaiseAt(catalog[dev.deviceType], world.reply, Rows(catalog[dev.deviceType], 0), k)
    ensures var o := Inspect(dev, catalog, world);
            var column := catalog[dev.deviceType];
            var rows := Rows(column, 0);
            var plan := Plan(column, world.reply, rows[..k]);
            var cmd := column[rows[k]].text;
            var name := world.reply(rows[k]).typeName;
            && o.ending == Aborted(CommandCrash(if k == 0 then ShowUnbound(name) else SendFailed(name)))
            && o.sent == Commands(plan) + [cmd]
            && o.effects == [Notice(InspectingNotice(dev.host))] + Printed(TimeoutNotices(dev.host, plan))
                 + [WriteTranscript(TranscriptName(dev.host), Header(world.stamp) + StoppedText(plan, cmd, LastShow(None, plan)))]
                 + [Disconnect, Release]
  {
    RunStopsAtFirstRaise(dev.host, catalog[dev.deviceType], world.reply, 0, None, k);
  }
}

=== FILE: wrappers.dfy ===
/** A value that may be absent. */
module Wrappers {

  datatype Option<+T> = None | Some(value: T)
}
